=== FILE: README.md ===
# Chain-Framework core, modelled in Dafny

This project models the bookkeeping inside `Chain.py` of the Chain framework,
a thin layer that lets a caller send a templated prompt, or a batch of them,
to models of several providers (OpenAI, Anthropic, Google, local Ollama models
and a fixed-answer testing model named `polonius`) and get a `Response` back.

What is modelled:

- the model catalog `Chain.models`, and model-name resolution in
  `Model.__init__`: three aliases, any catalogued id, `ValueError` otherwise
  (module `Registry`);
- provider routing in `Model.query` and `Model.chat`, the `is_message` test
  that chooses between them, and the fixed answer of `query_polonius`
  (module `Routing`);
- the message rewrite `chat_gemini` performs before calling Google
  (module `Gemini`, over Python dicts modelled in `PyValues`);
- the log preview `Model.pretty` (module `Preview`);
- `Parser.__init__` and its parser table (module `Parsers`);
- `Response.__str__`, `__len__` and `__add__` (module `Responses`);
- `Chain.__init__`, `Prompt.render`, `Chain.run` and `Chain.batch`
  (module `Chains`).

Python values are the datatype `PyValues.Value`. A dict is an ordered list of
string-keyed entries, so that `pop` followed by assignment moves a key to the
end as in Python. An exception is `Failure(e)` in a `Result`. The calls the
model cannot see are function-typed parameters:

- the provider SDK calls are `Routing.Backends`;
- strict Jinja rendering is `Chains.Externals.render`;
- `find_variables` is the `variables` argument of `Chains.BuildChain`;
- the three library parsers are `Parsers.Library`;
- `json.dumps(_, indent=4)` and `str` of a list are the `dumps` and `repr`
  arguments of the `Responses` functions.

A few facts about `Chain.py` that shape the model:

- `batch` runs its inputs one after another in a plain loop, and the first
  run that raises ends the batch;
- `run` always gives its response the status `success`;
- every provider receives the messages as given; the only rewrite is the
  Google one in `chat_gemini`;
- an unknown model id that reaches `query` or `chat` is answered with the text
  `Model not found: <id>`; nothing is raised;
- `pretty` deletes newlines and tabs; it does not replace them with spaces.

## Model

| member | source | states |
|---|---|---|
| `Registry.Catalog` | Chain.py:63-69 | Each provider lists at least one id, and no provider lists an id twice. |
| `Registry.AliasTarget` | Chain.py:203-208 | Exactly `claude`, `gpt` and `gemini` are aliases, and each resolves to an id different from itself. |
| `Registry.NewModel` | Chain.py:199-212 | An alias resolves to its fixed id. Any other name is accepted, unchanged, exactly when it is in the flattened catalog. Otherwise the result is `ValueError("Model not found: <name>")`. Every constructed model names a catalog entry. |
| `Registry.AliasTargetsCatalogued` | Chain.py:203-208 | Each alias target is a catalogued id. |
| `Registry.InAllModels` | Chain.py:209 | The flattened catalog holds a name exactly when some provider's list holds it. |
| `Registry.CatalogDisjoint` | Chain.py:63-69 | No id is listed under two providers. |
| `Registry.AliasesResolve` | Chain.py:203-208 | `claude`, `gpt` and `gemini` resolve to `claude-3-opus-20240229`, `gpt-4o` and `gemini-pro`. Each target differs from its alias and is listed by Anthropic, OpenAI and Google respectively. |
| `Registry.AliasDiffers` | tests/claude_tests_REVIEW_HITL.py:43-46 | Every alias resolves, and to an id different from the alias. |
| `Registry.ResolveIdempotent` | Chain.py:199-212 | Resolving an already resolved id gives the same model back. |
| `Registry.NotCatalogued` | Chain.py:63-69 | The alias names and the bare name `mistral` are not catalogued ids. |
| `Registry.MistralRejected` | Chain.py:209-212 | `Model("mistral")` raises `ValueError("Model not found: mistral")`, because only `mistral:latest` is listed. |
| `Routing.AllDicts` | Chain.py:197 | True exactly when every element is a dict. |
| `Routing.IsMessage` | Chain.py:189-197 | True exactly when the value is a list whose every element is a dict, so the empty list counts. |
| `Routing.Chat` | Chain.py:315-331 | OpenAI, Anthropic and Ollama ids send the messages unchanged to their provider. A Google id sends the Gemini rewrite of the messages, and only this branch can raise: it succeeds exactly when every message survives the rewrite, and otherwise raises the rewrite's own error (`KeyError('role')` or `TypeError`). The testing id answers with the fixed text, and an unknown id with `Model not found: <id>`. |
| `Routing.NotFoundText` | Chain.py:238 | The not-found text is `Model not found: ` followed by the model id, verbatim. |
| `Routing.Route` | Chain.py:227-236 | A chosen provider lists the id. No provider is chosen only when no provider's list holds the id. |
| `Routing.Query` | Chain.py:221-260 | A message list is handed to `chat` unchanged. Any other input succeeds exactly when it is a string or the id takes the testing or not-found branch. A non-string sent to one of the four SDK branches raises `TypeError` in the `pretty` call that logs it (Chain.py:244). Failures come only from those two cases. |
| `Routing.RouteMatchesCatalog` | Chain.py:227-236 | The branch chosen for an id is a provider exactly when that provider's list holds the id. So every catalogued id reaches exactly one provider. |
| `Routing.RouteNoneIffUncatalogued` | Chain.py:227-238 | No branch is chosen exactly when the id is not in the flattened catalog. |
| `Routing.ConstructedModelsRoute` | Chain.py:209-212 | A model built by `Model(name)` is always routed to some provider. |
| `Routing.PoloniusIgnoresInput` | Chain.py:307-313 | The testing model answers every input, text or message list, with the same fixed text. |
| `Routing.UnknownModelAnswersText` | Chain.py:237-238 | An uncatalogued id yields the text `Model not found: <id>` for every input, never an exception. |
| `Routing.TextGoesToOwner` | Chain.py:227-234 | A string input to a catalogued, non-testing id goes unchanged to the provider that lists the id. |
| `Routing.MessagesGoToOwner` | Chain.py:221-226 | A message list sent to a catalogued OpenAI, Anthropic or Ollama id reaches that provider unchanged. For a Google id it reaches Google after the Gemini rewrite, when the rewrite succeeds. |
| `Routing.NonTextRaisesInPreview` | Chain.py:240-260 | Any other input that is not a message list, sent to a catalogued, non-testing id, raises `TypeError`. |
| `Routing.EmptyListIsMessage` | Chain.py:195-197 | The empty list is a message list. |
| `Gemini.RenameRole` | Chain.py:371-372 | The role becomes `model` if it was `assistant` and is otherwise kept. No other key changes. Keys stay distinct. |
| `Gemini.MoveContent` | Chain.py:374-375 | Afterwards there is no `content` key. An old content is the only element of `parts`. Without content the dict is untouched. No key other than `content` and `parts` changes. |
| `Gemini.NormalizeMessage` | Chain.py:369-375 | A message is rewritten exactly when it is a dict with a `role` key. A dict without one raises `KeyError('role')`. |
| `Gemini.NormalizeMessageFields` | Chain.py:369-375 | A rewritten message holds the Google role, no `content`, and the old content as `parts = [content]`. Every other key is untouched and keys stay distinct. |
| `Gemini.NormalizeAll` | Chain.py:369-375 | The rewrite succeeds exactly when every message can be rewritten. Count and order are kept, and the i-th output is the rewrite of the i-th message. |
| `Gemini.NormalizeAllStopsAtFirstFailure` | Chain.py:369-375 | On failure, the error raised is that of the first message that cannot be rewritten. |
| `Gemini.NormalizeMessageIdempotent` | Chain.py:369-375 | Rewriting an already rewritten message changes nothing. |
| `Gemini.NormalizeAllIdempotent` | Chain.py:369-375 | Rewriting an already rewritten list changes nothing, as happens when a later chat turn passes the same list again. |
| `Gemini.RecordNormalizes` | Chain.py:369-375 | `{role, content}` becomes `{role', parts: [content]}`, where role' is the Google role. |
| `Gemini.RecordsNormalize` | Chain.py:369-375 | A conversation of `{role, content}` records maps element-wise, in order, to `{role', parts: [content]}` records. |
| `Wrappers.MapUntilFailure` | Chain.py:369-375 | A loop whose body may raise succeeds exactly when every step succeeds. On success it keeps length and order. |
| `Wrappers.MapStopsAtFirstFailure` | Chain.py:369-375 | A failed loop reports the error of its first failing step, and every earlier step succeeded. |
| `PyValues.DistinctKeyCount` | Chain.py:523 | A dict without repeated keys has as many entries as distinct keys. |
| `PyValues.Lookup` | Chain.py:371 | A key is found exactly when it is among the dict's keys. The value found is stored under that key. |
| `PyValues.Store` | Chain.py:375 | `d[k] = v`: afterwards `k` maps to `v` and every other key is unchanged. An existing key keeps its place, and a new key is appended. |
| `PyValues.Remove` | Chain.py:375 | `d.pop(k)`: afterwards `k` is absent, every other key is unchanged, and keys stay distinct. |
| `PyValues.StoreKeepsDistinct` | Chain.py:375 | Assigning a key never duplicates a key. |
| `Preview.DropNewlinesTabs` | Chain.py:244 | The result contains no newline and no tab and is no longer than the input. |
| `Preview.DropAppend` | Chain.py:244 | Deletion distributes over concatenation, so every other character is kept, in order. |
| `Preview.DropKeepsCleanText` | Chain.py:244 | Text without newlines or tabs is unchanged by the deletion. |
| `Preview.LStrip` | Chain.py:244 | Removes exactly the longest all-whitespace prefix, using Python's `isspace` set. |
| `Preview.RStrip` | Chain.py:244 | Removes exactly the longest all-whitespace suffix. |
| `Preview.Strip` | Chain.py:244 | A non-empty result neither starts nor ends with whitespace. |
| `Preview.StripIsSlice` | Chain.py:244 | The stripped text is the slice of the input between an all-whitespace prefix and an all-whitespace suffix. |
| `Preview.StripKeepsClean` | Chain.py:244 | Stripping never introduces a newline or tab. |
| `Preview.StripIdempotent` | Chain.py:244 | Stripping twice equals stripping once. |
| `Preview.Pretty` | Chain.py:240-245 | The preview has at most 150 characters, no newline or tab, and no leading whitespace. It is a prefix of the cleaned, stripped input, and is either all of it or exactly 150 characters. |
| `Preview.PrettyIgnoresNewlinesTabs` | Chain.py:244-245 | Inserting a newline or tab anywhere in the input does not change the preview. |
| `Preview.PrettyKeepsShortText` | Chain.py:240-245 | Clean text of at most 150 characters with no surrounding whitespace is its own preview. |
| `Preview.PrettyCutsLongText` | Chain.py:245 | When the cleaned, stripped text has at least 150 characters, the preview has exactly 150. |
| `Parsers.TableEntry` | Chain.py:419-468 | The table has an entry exactly for `str`, `json`, `list` and `curriculum_parser`. |
| `Parsers.NewParser` | Chain.py:470-485 | Construction succeeds exactly for a callable or a table name. A callable keeps the instructions passed with it, and a name takes the table's entry. An unhashable value (a list, dict or set, or a tuple holding one) raises `TypeError`. Anything else raises `ValueError("Parser is not recognized: ...")`. |
| `Parsers.Parse` | Chain.py:494-495 | Parsing applies the parser's own function: the caller's callable, or the library function the table names. The format instructions play no part. |
| `Parsers.ParseAppliesChosenFunction` | Chain.py:478-495 | `Parser(f, fi).parse(x) == f(x)`. A parser built from `str`, `json`, `list` or `curriculum_parser` parses with the string, json, list and json library functions respectively. |
| `Parsers.NamedParserIgnoresInstructions` | Chain.py:478-480 | For a table name, the instructions passed in are ignored. |
| `Parsers.CurriculumUsesJson` | Chain.py:437-439 | `curriculum_parser` parses with the json parser and its own instructions. |
| `Parsers.IdentityParserKeepsOutput` | Chain.py:75 | The default parser `lambda x: x` returns the model's text unchanged. |
| `Responses.ToText` | Chain.py:525-535 | `str` succeeds exactly for string or list content, and for a dict that holds no set or bytes object at any depth. Every failure is a `TypeError`. String content comes back unchanged, a dict is pretty-printed and a list stringified. |
| `Responses.UnserialisableDictHasNoText` | Chain.py:519-531 | A one-entry dict holding a set or bytes object has length 1, but `str(response)` raises `TypeError` in `json.dumps`. |
| `Responses.Length` | Chain.py:519-523 | `len` succeeds exactly for string, list, dict, tuple, set or bytes content. It is the number of characters, items, entries, elements, members or bytes respectively. |
| `Responses.LengthWithoutText` | Chain.py:519-535 | For tuple, set or bytes content `len(response)` succeeds while `str(response)` raises `TypeError`. |
| `Responses.Concat` | Chain.py:537-543 | `response + s` succeeds exactly when `str(response)` does, and equals `str(response) + s`. A non-string operand raises `TypeError`. |
| `Responses.StringContentActsAsString` | Chain.py:519-543 | For string content c: `len(response) == len(str(response))`, `response + s == c + s`, and its length is `len(response) + len(s)`. |
| `Responses.DictLengthCountsKeys` | Chain.py:519-523 | For dict content, `len(response)` is the number of distinct keys. |
| `Chains.NewPrompt` | Chain.py:161-164 | A new prompt keeps its template and starts with empty instructions. |
| `Chains.RenderPrompt` | Chain.py:173-179 | Rendering succeeds exactly when the template renders. The text is the rendered template followed by the format instructions. |
| `Chains.BuildChain` | Chain.py:95-112 | A given model and a given parser are kept. A template string becomes the prompt's template, and a `Prompt` object is kept apart from its instructions. Without one, the default model is resolved; the build fails exactly when that fails, and with the same `ValueError`. The prompt carries the parser's instructions, the input schema is the template's variables, and the output schema is `{result}`. The defaults are the identity parser and the example prompt. |
| `Chains.NewChainAsWritten` | Chain.py:100-101 | With the source's default model name, a chain built without a model raises `ValueError("Model not found: mistral")`. |
| `Chains.NewChain` | Chain.py:100-101 | With the catalogued default `mistral:latest`, building a chain always succeeds. |
| `Chains.TheOnly` | Chain.py:131 | For a one-element variable set, returns its only element. |
| `Chains.RunInput` | Chain.py:127-131 | A missing input becomes the example input. With exactly one template variable, a bare string becomes a one-entry mapping from that variable. Anything else is passed on unchanged. |
| `Chains.Run` | Chain.py:122-141 | An input that is not a mapping after wrapping raises `TypeError`. A render failure is the run's failure, and a parser's exception is the run's exception. Otherwise an unparsed run always succeeds, and a parsed run succeeds exactly when the parser accepts the model's answer. A successful response has status `success` and the chain's model id. Its prompt is the rendered prompt and ends with the format instructions. Its content is the model's answer to that prompt, as text when unparsed and as the parser's result when parsed. |
| `Chains.RunWrapsString` | Chain.py:130-131 | For a single-variable template, running a string is the same as running the mapping from that variable to the string. |
| `Chains.RunDefaultsToExample` | Chain.py:127-128 | `run()` with no input runs `{'input': 'John Henry'}`. |
| `Chains.PoloniusRunsAgree` | Chain.py:132-140 | On the testing model, any two successful runs have the same content. |
| `Chains.BatchInputs` | Chain.py:147-148 | An empty list is replaced by the four-element example batch. Any other list is kept. |
| `Chains.Batch` | Chain.py:143-153 | The batch succeeds exactly when every run succeeds, and the i-th response is then the run of the i-th input. A failed batch carries the error of its first failing run. |
| `Chains.DefaultChainFailsAsWritten` | Chain.py:100-101 | `Chain()` as written raises. |
| `Chains.DefaultChainBuilds` | Chain.py:95-112 | With the corrected default, `Chain()` builds a chain on the example prompt with the identity parser and `mistral:latest`. |

## Left out

- Provider SDK calls (`query_gpt`, `query_claude`, `query_ollama`, `query_gemini`, the `chat_*` calls) and client setup are remote I/O. They are opaque parameters, so their answers and their exceptions are not modelled. `query_gpt`, `query_claude` and `query_ollama` wrap a bare prompt into one user message inside those calls; `query_gemini` passes the bare prompt to `generate_content` as it is.
- The `print` of each query's preview and of each batch input writes to standard output, which is not modelled. `Preview.Pretty` models the preview text for a string input. The `TypeError` that `pretty` raises for any other input is modelled in `Routing.Query`.
- `query_gpt_async` is async and is never called.
- The timing around the query in `run` and the response's `duration` are wall-clock floats.
- Jinja template parsing and rendering and `find_variables` are library calls. They are the opaque `render` and `variables` parameters, and a template syntax error raised by `Prompt(...)` is not modelled.
- `json_parser`, `list_parser` and `string_parser` are library code and are opaque. `string_parser` returns the builtin `input` rather than its argument, and a builtin function has no counterpart among the modelled values.
- `json.dumps` and `str` of a list are library formatting and are opaque parameters.
- `update_models` rebuilds the Ollama list from `ollama.list()`, which is I/O. It could also break the disjointness `Registry.CatalogDisjoint` proves for the fixed catalog.
- `Chat.chat` is an interactive loop on standard input and output.
- `__repr__` methods are debugging output.
- `chat_gemini` rewrites the caller's dicts in place. Two things are therefore not modelled: the caller's list changing, and the messages already rewritten before a later message raises.
- Routing.Chat: takes a list of messages only. Calling `Model.chat` directly with a string or another non-list value is not modelled.
- Gemini.NormalizeMessage: a message that is not a dict raises `TypeError`, but Python's exact wording, which depends on the value's type, is not reproduced.
- Responses.ToText: the `TypeError` texts for numbers, booleans and `None`, and for values `json.dumps` cannot serialise, are not Python's exact wording.
- Responses.Length: counts the entries of a dict. This equals the number of keys only for a dict with distinct keys, which `Responses.DictLengthCountsKeys` proves. Every Python dict has distinct keys; the model's entry lists need not.
- Floats and complex numbers are not values of the model, although `json.loads` and `ast.literal_eval` can return them as parser output. As response content they behave like integers: `len` raises and `str` raises `TypeError`.
- Parsers.NewParser: for a tuple or bytes argument, the `ValueError` message omits Python's rendering of the value.
- Chains.BuildChain: `Chain.__init__` writes the parser's instructions into the caller's `Prompt` object (Chain.py:112). A `Prompt` shared by two chains therefore renders with the instructions of the chain built last. The model treats a prompt as a value and copies it into each chain, so that aliasing is not modelled.
- Chains.BuildChain: the class docstring (Chain.py:57-59) describes `model` as a model name and `parser` as a function. The code stores both unchanged. A bare function raises `AttributeError` when Chain.py:112 reads its `format_instructions`. A model name raises `AttributeError` when `run` calls `self.model.query` (Chain.py:134). The model accepts only a `Model` and a `Parser`, so those two errors are not modelled.
- Dict keys are strings. Python allows other hashable keys, but no dict the framework builds or inspects uses them.

## Findings

| source | as written | input that shows it | evidently intended | confidence | as-written member | corrected member |
|---|---|---|---|---|---|---|
| Chain.py:74 | The default model name is `mistral`, but the catalog lists only `mistral:latest` (Chain.py:64), and `Model.__init__` rejects uncatalogued names (Chain.py:209-212). | `Chain()` or `Chain(prompt)` without a model raises `ValueError: Model not found: mistral`, although the docstring says the chain defaults to mistral. | Default to the catalogued local id `mistral:latest`. | medium, not executed | `Chains.NewChainAsWritten` (with `Chains.DefaultChainFailsAsWritten`) | `Chains.NewChain` (with `Chains.DefaultChainBuilds`) |

=== FILE: chains.dfy ===
/** `Chain`, `Prompt.render`, `Chain.run` and `Chain.batch`: a chain renders
    its prompt template with the caller's variables, appends the parser's
    format instructions, queries its model, parses the answer and wraps it in a
    `Response`. Template rendering, `find_variables` and the provider calls are
    opaque. */
module Chains {
  import opened Wrappers
  import opened PyValues
  import opened Registry
  import opened Routing
  import opened Parsers
  import opened Responses

  /** A prompt: the template text and the instructions appended after it. */
  datatype Prompt = Prompt(template: string, formatInstructions: string)

  datatype Chain = Chain(
    prompt: Prompt,
    model: Model,
    parser: Parser,
    inputSchema: set<string>,   // the template's variables
    outputSchema: set<string>)

  /** The opaque collaborators of a run: `render(template, variables)` is the
      strict Jinja rendering (it raises on an undefined variable). */
  datatype Externals = Externals(
    render: (string, seq<Entry>) -> Result<string, Error>,
    backends: Backends,
    library: Library)

  /** The defaults a `Chain` falls back on. */
  const PromptExample: string := "sing a song about {{input}}. Keep it under 200 characters."
  const RunExample: Value := Dict([Entry("input", Str("John Henry"))])
  const BatchExample: seq<Value> := [
    Dict([Entry("input", Str("John Henry"))]),
    Dict([Entry("input", Str("Paul Bunyan"))]),
    Dict([Entry("input", Str("Babe the Blue Ox"))]),
    Dict([Entry("input", Str("Brer Rabbit"))])]

  /** The default model name as the source writes it; it is not catalogued. */
  const ModelExampleAsWritten: string := "mistral"
  /** The default model name the rest of the model uses: the catalogued id of
      the same local model. */
  const ModelExample: string := "mistral:latest"

  /** `Prompt(template)`: instructions start empty. */
  function NewPrompt(template: string): (p: Prompt)
    ensures p.template == template && p.formatInstructions == ""
  {
    Prompt(template, "")
  }

  /** `Prompt.render`: the rendered template followed by the instructions. */
  function RenderPrompt(p: Prompt, vars: seq<Entry>, render: (string, seq<Entry>) -> Result<string, Error>): (r: Result<string, Error>)
    ensures r.Success? <==> render(p.template, vars).Success?
    ensures r.Success? ==>
      var body := render(p.template, vars).value;
      && |r.value| == |body| + |p.formatInstructions|
      && r.value[..|body|] == body
      && r.value[|body|..] == p.formatInstructions
  {
    match render(p.template, vars)
    case Failure(e) => Failure(e)
    case Success(body) =>
      var text := body + p.formatInstructions;
      assert text[..|body|] == body;
      Success(text)
  }

  /** The first argument of `Chain(...)`. */
  datatype PromptArg = NoPrompt | Template(text: string) | PromptObject(p: Prompt)

  /** `Chain.__init__`, with the default model name as a parameter so that
      the source's default and the corrected one share one definition. The
      parser's instructions are copied into the prompt. */
  function BuildChain(defaultModel: string, prompt: PromptArg, model: Option<Model>, parser: Option<Parser>,
                      variables: string -> set<string>): (r: Result<Chain, Error>)
    ensures model.Some? ==> r.Success? && r.value.model == model.value
    ensures model.None? ==> (r.Success? <==> NewModel(defaultModel).Success?)
    ensures model.None? && r.Success? ==> r.value.model == NewModel(defaultModel).value
    ensures r.Failure? ==> model.None? && r.error == NewModel(defaultModel).error
    ensures r.Success? ==> r.value.prompt.formatInstructions == r.value.parser.formatInstructions
    ensures r.Success? ==> r.value.inputSchema == variables(r.value.prompt.template)
    ensures r.Success? ==> r.value.outputSchema == {"result"}
    ensures r.Success? && parser.None? ==> r.value.parser == IdentityParser
    ensures r.Success? && parser.Some? ==> r.value.parser == parser.value
    ensures r.Success? && prompt.Template? ==> r.value.prompt.template == prompt.text
    ensures r.Success? && prompt.PromptObject? ==>
      r.value.prompt == prompt.p.(formatInstructions := r.value.parser.formatInstructions)
    ensures r.Success? && prompt.NoPrompt? ==> r.value.prompt.template == PromptExample
  {
    var p := match prompt
      case NoPrompt => NewPrompt(PromptExample)
      case Template(text) => NewPrompt(text)
      case PromptObject(q) => q;
    var pr := if parser.None? then IdentityParser else parser.value;
    var m := if model.Some? then Success(model.value) else NewModel(defaultModel);
    match m
    case Failure(e) => Failure(e)
    case Success(m) =>
      Success(Chain(p.(formatInstructions := pr.formatInstructions), m, pr, variables(p.template), {"result"}))
  }

  /** `Chain(prompt, model, parser)` exactly as the source writes it. */
  function NewChainAsWritten(prompt: PromptArg, model: Option<Model>, parser: Option<Parser>,
                             variables: string -> set<string>): (r: Result<Chain, Error>)
    ensures model.None? ==> r == Failure(ValueError("Model not found: mistral"))
  {
    MistralRejected();
    BuildChain(ModelExampleAsWritten, prompt, model, parser, variables)
  }

  /** `Chain(prompt, model, parser)` with the catalogued default model. */
  function NewChain(prompt: PromptArg, model: Option<Model>, parser: Option<Parser>,
                    variables: string -> set<string>): (r: Result<Chain, Error>)
    ensures r.Success?
    ensures model.None? ==> r.value.model == Model("mistral:latest")
  {
    assert "mistral:latest" in Catalog(Ollama);
    BuildChain(ModelExample, prompt, model, parser, variables)
  }

  /** The one variable of a single-variable template. */
  function TheOnly(s: set<string>): (x: string)
    requires |s| == 1
    ensures s == {x}
  {
    var x :| x in s;
    assert s == {x} by {
      assert |s - {x}| == 0;
    }
    x
  }

  /** The mapping `run` renders with: `None` becomes the example input, and a
      bare string is wrapped under the template's only variable. */
  function RunInput(c: Chain, input: Value): (v: Value)
    ensures input.Null? ==> v == RunExample
    ensures input.Str? && |c.inputSchema| == 1 ==>
      v.Dict? && |v.entries| == 1 && v.entries[0].key in c.inputSchema && v.entries[0].val == input
    ensures !input.Null? && !(input.Str? && |c.inputSchema| == 1) ==> v == input
  {
    if input.Null? then RunExample
    else if input.Str? && |c.inputSchema| == 1 then Dict([Entry(TheOnly(c.inputSchema), input)])
    else input
  }

  /** The model's answer to a rendered prompt. A prompt is a string, so
      `query` never raises on it. */
  function Answer(c: Chain, prompt: string, x: Externals): string {
    Query(c.model, Str(prompt), x.backends).value
  }

  /** `Chain.run`. The input must end up a mapping (`render(**input)`), the
      provider's answer is parsed when `parsed` holds, and the response always
      has status `success` and names the chain's model. */
  function Run(c: Chain, input: Value, parsed: bool, x: Externals): (r: Result<Response, Error>)
    ensures !RunInput(c, input).Dict? ==> r.Failure? && r.error.TypeError?
    ensures RunInput(c, input).Dict? ==>
      var rendered := RenderPrompt(c.prompt, RunInput(c, input).entries, x.render);
      && (rendered.Failure? ==> r == Failure(rendered.error))
      && (rendered.Success? && !parsed ==> r.Success?)
      && (rendered.Success? && parsed ==>
            (r.Success? <==> Parse(c.parser, Answer(c, rendered.value, x), x.library).Success?))
      && (rendered.Success? && parsed && Parse(c.parser, Answer(c, rendered.value, x), x.library).Failure? ==>
            r == Failure(Parse(c.parser, Answer(c, rendered.value, x), x.library).error))
    ensures r.Success? ==>
      && r.value.status == "success"
      && r.value.model == c.model.name
      && RunInput(c, input).Dict?
      && Success(r.value.prompt) == RenderPrompt(c.prompt, RunInput(c, input).entries, x.render)
    ensures r.Success? ==>
      var fi := c.prompt.formatInstructions;
      |fi| <= |r.value.prompt| && r.value.prompt[|r.value.prompt| - |fi|..] == fi
    ensures r.Success? && !parsed ==> r.value.content == Str(Answer(c, r.value.prompt, x))
    ensures r.Success? && parsed ==>
      Parse(c.parser, Answer(c, r.value.prompt, x), x.library) == Success(r.value.content)
  {
    var mapping := RunInput(c, input);
    if !mapping.Dict? then Failure(TypeError("argument after ** must be a mapping"))
    else
      match RenderPrompt(c.prompt, mapping.entries, x.render)
      case Failure(e) => Failure(e)
      case Success(prompt) =>
        var answer := Answer(c, prompt, x);
        var content := if parsed then Parse(c.parser, answer, x.library) else Success(Str(answer));
        match content
        case Failure(e) => Failure(e)
        case Success(v) => Success(Response(v, "success", prompt, c.model.name))
  }

  /** A bare string given to a single-variable chain is run exactly as the
      one-entry mapping from that variable to the string. */
  lemma RunWrapsString(c: Chain, s: string, parsed: bool, x: Externals)
    requires |c.inputSchema| == 1
    ensures Run(c, Str(s), parsed, x) == Run(c, Dict([Entry(TheOnly(c.inputSchema), Str(s))]), parsed, x)
  {
  }

  /** `run()` without input runs the example input. */
  lemma RunDefaultsToExample(c: Chain, parsed: bool, x: Externals)
    ensures Run(c, Null, parsed, x) == Run(c, RunExample, parsed, x)
  {
  }

  /** A chain on the testing model answers every input with the same content. */
  lemma PoloniusRunsAgree(c: Chain, a: Value, b: Value, parsed: bool, x: Externals)
    requires c.model == Model("polonius")
    ensures Run(c, a, parsed, x).Success? && Run(c, b, parsed, x).Success? ==>
      Run(c, a, parsed, x).value.content == Run(c, b, parsed, x).value.content
  {
    if Run(c, a, parsed, x).Success? && Run(c, b, parsed, x).Success? {
      PoloniusIgnoresInput(Str(Run(c, a, parsed, x).value.prompt), x.backends);
      PoloniusIgnoresInput(Str(Run(c, b, parsed, x).value.prompt), x.backends);
    }
  }

  /** The inputs `batch` runs: an empty list is replaced by the example batch. */
  function BatchInputs(inputs: seq<Value>): (xs: seq<Value>)
    ensures inputs != [] ==> xs == inputs
    ensures inputs == [] ==> |xs| == 4 && xs == BatchExample
  {
    if inputs == [] then BatchExample else inputs
  }

  /** `Chain.batch`: the inputs are run one after another, in order, each with
      parsing on; the first run that raises ends the batch with its error. */
  method Batch(c: Chain, inputs: seq<Value>, x: Externals) returns (r: Result<seq<Response>, Error>)
    ensures var xs := BatchInputs(inputs);
      r.Success? <==> forall i | 0 <= i < |xs| :: Run(c, xs[i], true, x).Success?
    ensures var xs := BatchInputs(inputs);
      r.Success? ==> |r.value| == |xs| && forall i | 0 <= i < |xs| :: r.value[i] == Run(c, xs[i], true, x).value
    ensures var xs := BatchInputs(inputs);
      r.Failure? ==> exists i | 0 <= i < |xs| ::
        && Run(c, xs[i], true, x) == Failure(r.error)
        && forall j | 0 <= j < i :: Run(c, xs[j], true, x).Success?
  {
    var xs := BatchInputs(inputs);
    var out: seq<Response> := [];
    var i := 0;
    while i < |xs|
      invariant 0 <= i <= |xs|
      invariant |out| == i
      invariant forall j | 0 <= j < i :: Run(c, xs[j], true, x).Success? && out[j] == Run(c, xs[j], true, x).value
    {
      var res := Run(c, xs[i], true, x);
      if res.Failure? {
        return Failure(res.error);
      }
      out := out + [res.value];
      i := i + 1;
    }
    return Success(out);
  }

  /** `Chain()` as written raises, because its default model id is not
      catalogued. */
  lemma DefaultChainFailsAsWritten(variables: string -> set<string>)
    ensures NewChainAsWritten(NoPrompt, None, None, variables).Failure?
  {
  }

  /** With the catalogued default, `Chain()` builds a chain on the example
      prompt with the identity parser and the local mistral model. */
  lemma DefaultChainBuilds(variables: string -> set<string>)
    ensures NewChain(NoPrompt, None, None, variables).Success?
    ensures var c := NewChain(NoPrompt, None, None, variables).value;
      c.model == Model("mistral:latest") && c.parser == IdentityParser && c.prompt.template == PromptExample
  {
  }
}

=== FILE: gemini.dfy ===
/** The message-shape normalisation `chat_gemini` applies before calling
    Google: an `assistant` role becomes `model`, and `content` moves into a
    one-element `parts` list. The source rewrites the caller's dicts in place;
    the model returns the rewritten list instead. */
module Gemini {
  import opened Wrappers
  import opened PyValues

  /** The role Google expects for a given OpenAI-style role. */
  function GeminiRole(role: Value): Value {
    if role == Str("assistant") then Str("model") else role
  }

  /** `if message['role'] == 'assistant': message['role'] = 'model'`. */
  function RenameRole(es: seq<Entry>): (r: seq<Entry>)
    requires Lookup(es, "role").Some?
    ensures Lookup(r, "role") == Some(GeminiRole(Lookup(es, "role").value))
    ensures forall k | k != "role" :: Lookup(r, k) == Lookup(es, k)
    ensures DistinctKeys(es) ==> DistinctKeys(r)
  {
    StoreKeepsDistinct(es, "role", Str("model"));
    if Lookup(es, "role") == Some(Str("assistant")) then Store(es, "role", Str("model")) else es
  }

  /** `if 'content' in message: message['parts'] = [message.pop('content')]`. */
  function MoveContent(es: seq<Entry>): (r: seq<Entry>)
    ensures Lookup(r, "content") == None
    ensures Lookup(es, "content").Some? ==>
      Lookup(r, "parts") == Some(List([Lookup(es, "content").value]))
    ensures Lookup(es, "content").None? ==> r == es
    ensures forall k | k != "content" && k != "parts" :: Lookup(r, k) == Lookup(es, k)
    ensures DistinctKeys(es) ==> DistinctKeys(r)
  {
    match Lookup(es, "content")
    case None => es
    case Some(c) =>
      var popped := Remove(es, "content");
      StoreKeepsDistinct(popped, "parts", List([c]));
      Store(popped, "parts", List([c]))
  }

  /** One loop iteration of `chat_gemini` on one message. A message that is not
      a dict, or has no `role` key, raises. */
  function NormalizeMessage(m: Value): (r: Result<Value, Error>)
    ensures r.Success? <==> m.Dict? && Lookup(m.entries, "role").Some?
    ensures m.Dict? && Lookup(m.entries, "role").None? ==> r == Failure(KeyError("role"))
    ensures r.Success? ==> r.value.Dict?
  {
    match m
    case Dict(es) =>
      if Lookup(es, "role").None? then Failure(KeyError("role"))
      else Success(Dict(MoveContent(RenameRole(es))))
    case _ => Failure(TypeError("message is not subscriptable by a string key"))
  }

  /** What one rewritten message holds: the Google role, no `content`, the old
      content as the only element of `parts`, every other key untouched, and
      still no key twice. */
  lemma NormalizeMessageFields(m: Value)
    requires m.Dict? && Lookup(m.entries, "role").Some?
    ensures var out := NormalizeMessage(m).value.entries;
      && Lookup(out, "role") == Some(GeminiRole(Lookup(m.entries, "role").value))
      && Lookup(out, "content") == None
      && (Lookup(m.entries, "content").Some? ==>
            Lookup(out, "parts") == Some(List([Lookup(m.entries, "content").value])))
      && (Lookup(m.entries, "content").None? ==> Lookup(out, "parts") == Lookup(m.entries, "parts"))
      && (forall k | k !in {"role", "content", "parts"} :: Lookup(out, k) == Lookup(m.entries, k))
      && (DistinctKeys(m.entries) ==> DistinctKeys(out))
  {
  }

  /** The whole `for message in messages` loop: messages are rewritten in
      order, and the list is rewritten only when no message raises. */
  function NormalizeAll(ms: seq<Value>): (r: Result<seq<Value>, Error>)
    ensures r.Success? <==> forall i | 0 <= i < |ms| :: NormalizeMessage(ms[i]).Success?
    ensures r.Success? ==> |r.value| == |ms|
    ensures r.Success? ==> forall i | 0 <= i < |ms| :: r.value[i] == NormalizeMessage(ms[i]).value
  {
    MapUntilFailure(NormalizeMessage, ms)
  }

  /** The loop stops at the first message that raises, and that message's
      exception is the one `chat_gemini` raises. */
  lemma NormalizeAllStopsAtFirstFailure(ms: seq<Value>)
    requires NormalizeAll(ms).Failure?
    ensures exists i | 0 <= i < |ms| ::
      && NormalizeMessage(ms[i]) == Failure(NormalizeAll(ms).error)
      && forall j | 0 <= j < i :: NormalizeMessage(ms[j]).Success?
  {
    MapStopsAtFirstFailure(NormalizeMessage, ms);
  }

  /** Normalising twice is the same as normalising once: a message already in
      Google's shape has no `assistant` role and no `content` key. */
  lemma NormalizeMessageIdempotent(m: Value)
    requires m.Dict? && Lookup(m.entries, "role").Some?
    ensures NormalizeMessage(NormalizeMessage(m).value) == NormalizeMessage(m)
  {
    var es := RenameRole(m.entries);
    var out := MoveContent(es);
    assert Lookup(out, "role") == Lookup(es, "role");
    assert RenameRole(out) == out;
    assert MoveContent(out) == out;
  }

  /** Running `chat_gemini`'s rewrite again on the list it already rewrote
      (as a later turn of a conversation does) changes nothing. */
  lemma {:induction false} NormalizeAllIdempotent(ms: seq<Value>)
    requires forall i | 0 <= i < |ms| :: ms[i].Dict? && Lookup(ms[i].entries, "role").Some?
    ensures NormalizeAll(NormalizeAll(ms).value) == NormalizeAll(ms)
  {
    var out := NormalizeAll(ms).value;
    forall i | 0 <= i < |out|
      ensures NormalizeMessage(out[i]) == Success(out[i])
    {
      NormalizeMessageIdempotent(ms[i]);
    }
    assert NormalizeAll(out).value == out;
  }

  /** An OpenAI-style message record, as the chat loop builds it. */
  datatype Message = Message(role: string, content: Value)

  /** The dict `{'role': role, 'content': content}`. */
  function ToDict(m: Message): Value {
    Dict([Entry("role", Str(m.role)), Entry("content", m.content)])
  }

  /** The dict Google receives for a message record:
      `{'role': role', 'parts': [content]}`. */
  function ToGeminiDict(m: Message): Value {
    Dict([Entry("role", GeminiRole(Str(m.role))), Entry("parts", List([m.content]))])
  }

  /** On a conversation of plain `{role, content}` messages the rewrite keeps
      count and order, renames `assistant` to `model`, and turns each content
      into a one-element `parts` list. */
  lemma RecordsNormalize(ms: seq<Message>)
    ensures NormalizeAll(seq(|ms|, i requires 0 <= i < |ms| => ToDict(ms[i])))
         == Success(seq(|ms|, i requires 0 <= i < |ms| => ToGeminiDict(ms[i])))
  {
    var ds := seq(|ms|, i requires 0 <= i < |ms| => ToDict(ms[i]));
    forall i | 0 <= i < |ms|
      ensures NormalizeMessage(ds[i]) == Success(ToGeminiDict(ms[i]))
    {
      RecordNormalizes(ms[i]);
    }
    var gs := seq(|ms|, i requires 0 <= i < |ms| => ToGeminiDict(ms[i]));
    assert NormalizeAll(ds).Success?;
    var out := NormalizeAll(ds).value;
    assert forall i | 0 <= i < |gs| :: out[i] == gs[i];
    assert out == gs;
  }

  lemma RecordNormalizes(m: Message)
    ensures NormalizeMessage(ToDict(m)) == Success(ToGeminiDict(m))
  {
    var roleEntry := Entry("role", GeminiRole(Str(m.role)));
    var contentEntry := Entry("content", m.content);
    var es := [Entry("role", Str(m.role)), contentEntry];
    assert es[1..] == [contentEntry];
    assert Lookup(es, "role") == Some(Str(m.role));
    var renamed := RenameRole(es);
    assert renamed == [roleEntry, contentEntry] by {
      if Str(m.role) == Str("assistant") {
        assert Store(es, "role", Str("model")) == [Entry("role", Str("model"))] + es[1..];
      }
    }
    assert renamed[1..] == [contentEntry];
    assert Lookup([contentEntry], "content") == Some(m.content);
    assert Lookup(renamed, "content") == Some(m.content);
    assert [contentEntry][1..] == [];
    assert Remove([contentEntry], "content") == [];
    var popped := Remove(renamed, "content");
    assert popped == [roleEntry];
    assert popped[1..] == [];
    assert Store(popped, "parts", List([m.content])) == [roleEntry, Entry("parts", List([m.content]))];
  }
}

=== FILE: parsers.dfy ===
/** `Parser.__init__` and `Parser.parse`: a parser is picked by name from a
    fixed table, or is any callable the caller supplies. The library parsers
    themselves (`string_parser`, `json_parser`, `list_parser`) are opaque:
    they are the functions in `Library`. */
module Parsers {
  import opened Wrappers
  import opened PyValues

  /** The parse function a parser applies: one of the three library parsers
      of the table, or a caller-supplied callable. */
  datatype ParseFn =
    | StringParser
    | JsonParser
    | ListParser
    | Custom(f: string -> Result<Value, Error>)

  datatype Parser = Parser(fn: ParseFn, formatInstructions: string)

  /** The first argument of `Parser(...)`: a callable, or any other value. */
  datatype ParserArg = Callable(f: string -> Result<Value, Error>) | Plain(v: Value)

  /** The opaque library parsers. */
  datatype Library = Library(
    str: string -> Result<Value, Error>,
    json: string -> Result<Value, Error>,
    list: string -> Result<Value, Error>)

  /** The keys of `Parser.parsers`. */
  const ParserNames: set<string> := {"str", "json", "list", "curriculum_parser"}

  const JsonInstructions: string :=
    "\n"
    + "                Return your answer as a well-formed json object. Only return the json object; nothing else.\n"
    + "                Do not include any formatting like \"```json\" or \"```\" around your answer. I will be parsing this with json.loads().\n"
    + "                "

  const ListInstructions: string :=
    "\n"
    + "                Return your answer as a sort of Python list, though with a back slash and a double quote (\") around each item,\n"
    + "                like this: [\"item1\", \"item2\", \"item3\"]. It is important to escape the double quotes so that we can parse it properly.\n"
    + "                Only return the list; nothing else. I will be using python ast.literal_eval() to parse this.\n"
    + "                "

  const CurriculumInstructions: string :=
    "\n"
    + "                Return your answer as a json object with this structure (this is just an example):\n"
    + "                {\n"
    + "                    \"topic\": \"ux design\",\n"
    + "                    \"curriculum\": [\n"
    + "                        {\n"
    + "                            \"module_number\" : 1,\n"
    + "                            \"topic\" : \"topic\",\n"
    + "                            \"rationale\" : \"rationale\",\n"
    + "                            \"description\" : \"description\",\n"
    + "                        }\n"
    + "                        {\n"
    + "                            \"module_number\" : 2,\n"
    + "                            \"topic\" : \"topic\",\n"
    + "                            \"rationale\" : \"rationale\",\n"
    + "                            \"description\" : \"description\",\n"
    + "                        }\n"
    + "                        {\n"
    + "                            \"module_number\" : 3,\n"
    + "                            \"topic\" : \"topic\",\n"
    + "                            \"rationale\" : \"rationale\",\n"
    + "                            \"description\" : \"description\",\n"
    + "                        }\n"
    + "                    ]\n"
    + "                }\n"
    + "\n"
    + "                Return your answer as a well-formed json object. Only return the json object; nothing else.\n"
    + "                Do not include any formatting like \"```json\" or \"```\" around your answer. I will be parsing this with json.loads().\n"
    + "                "

  /** `Parser.parsers[name]`, when `name` is a key of the table. */
  function TableEntry(name: string): (r: Option<Parser>)
    ensures r.Some? <==> name in ParserNames
  {
    if name == "str" then Some(Parser(StringParser, ""))
    else if name == "json" then Some(Parser(JsonParser, JsonInstructions))
    else if name == "list" then Some(Parser(ListParser, ListInstructions))
    else if name == "curriculum_parser" then Some(Parser(JsonParser, CurriculumInstructions))
    else None
  }

  /** `str(v)` for the values whose text appears in an error message. */
  function ScalarText(v: Value): string {
    match v
    case Null => "None"
    case Bool(b) => if b then "True" else "False"
    case Int(i) => if i < 0 then "-" + NatText(-i) else NatText(i)
    case Str(s) => s
    case _ => ""
  }

  function NatText(n: nat): string {
    var digit := ["0123456789"[n % 10]];
    if n < 10 then digit else NatText(n / 10) + digit
  }

  /** `Parser(parser, format_instructions)`. A table name takes the table's
      instructions and ignores the ones passed; a callable keeps the ones
      passed; an unhashable value (a list, dict or set, or a tuple holding
      one) makes the table lookup itself raise `TypeError`; anything else
      raises `ValueError`. */
  function NewParser(arg: ParserArg, formatInstructions: string): (r: Result<Parser, Error>)
    ensures r.Success? <==> arg.Callable? || (arg.Plain? && arg.v.Str? && arg.v.s in ParserNames)
    ensures arg.Callable? ==> r == Success(Parser(Custom(arg.f), formatInstructions))
    ensures r.Success? && arg.Plain? ==> Some(r.value) == TableEntry(arg.v.s)
    ensures arg.Plain? && !Hashable(arg.v) ==> r.Failure? && r.error.TypeError?
    ensures r.Failure? && Hashable(arg.v) ==>
      r.error == ValueError("Parser is not recognized: " + ScalarText(arg.v))
  {
    match arg
    case Callable(f) => Success(Parser(Custom(f), formatInstructions))
    case Plain(v) =>
      if !Hashable(v) then Failure(TypeError("unhashable type"))
      else if v.Str? && TableEntry(v.s).Some? then Success(TableEntry(v.s).value)
      else Failure(ValueError("Parser is not recognized: " + ScalarText(v)))
  }

  /** `Parser.parse`: apply the chosen function to the model's output; the
      format instructions play no part in parsing. */
  function Parse(p: Parser, output: string, lib: Library): (r: Result<Value, Error>)
    ensures p.fn.Custom? ==> r == p.fn.f(output)
    ensures p.fn == JsonParser ==> r == lib.json(output)
    ensures p.fn == ListParser ==> r == lib.list(output)
    ensures p.fn == StringParser ==> r == lib.str(output)
  {
    match p.fn
    case StringParser => lib.str(output)
    case JsonParser => lib.json(output)
    case ListParser => lib.list(output)
    case Custom(f) => f(output)
  }

  /** The parser a `Chain` gets when none is given: `Parser(lambda x: x)`. */
  const IdentityParser: Parser := Parser(Custom(x => Success(Str(x))), "")

  /** A table name selects the same parser whatever instructions are passed. */
  lemma NamedParserIgnoresInstructions(name: string, a: string, b: string)
    requires name in ParserNames
    ensures NewParser(Plain(Str(name)), a) == NewParser(Plain(Str(name)), b)
    ensures NewParser(Plain(Str(name)), a).Success?
  {
  }

  /** `curriculum_parser` parses with the json parser, with its own
      instructions. */
  lemma CurriculumUsesJson()
    ensures NewParser(Plain(Str("curriculum_parser")), "") ==
      Success(Parser(JsonParser, CurriculumInstructions))
  {
  }

  /** The default parser hands the model's output back as a string. */
  lemma IdentityParserKeepsOutput(output: string, lib: Library)
    ensures Parse(IdentityParser, output, lib) == Success(Str(output))
  {
  }

  /** `Parser(f, fi).parse(x) == f(x)`, and a parser built from a table name
      parses with that name's library function. */
  lemma ParseAppliesChosenFunction(f: string -> Result<Value, Error>, fi: string, output: string, lib: Library)
    ensures NewParser(Callable(f), fi).Success?
    ensures Parse(NewParser(Callable(f), fi).value, output, lib) == f(output)
    ensures Parse(NewParser(Plain(Str("str")), fi).value, output, lib) == lib.str(output)
    ensures Parse(NewParser(Plain(Str("json")), fi).value, output, lib) == lib.json(output)
    ensures Parse(NewParser(Plain(Str("list")), fi).value, output, lib) == lib.list(output)
    ensures Parse(NewParser(Plain(Str("curriculum_parser")), fi).value, output, lib) == lib.json(output)
  {
  }
}

=== FILE: preview.dfy ===
/** The log preview `Model.pretty`: newlines and tabs are deleted, surrounding
    whitespace is stripped, and the result is cut to 150 characters. */
module Preview {

  /** The preview's character budget. */
  const PreviewLimit: nat := 150

  /** Python's `str.isspace` for a single character (the characters `strip()`
      removes when called without arguments). */
  predicate IsSpace(c: char) {
    || ('\t' <= c <= '\r')
    || ('\U{1C}' <= c <= ' ')
    || c == '\U{85}' || c == '\U{A0}' || c == '\U{1680}'
    || ('\U{2000}' <= c <= '\U{200A}')
    || c == '\U{2028}' || c == '\U{2029}' || c == '\U{202F}' || c == '\U{205F}' || c == '\U{3000}'
  }

  /** The characters the regular expression `\n|\t` matches. */
  predicate IsNewlineOrTab(c: char) {
    c == '\n' || c == '\t'
  }

  /** No newline and no tab anywhere in `s`. */
  predicate Clean(s: string) {
    forall i | 0 <= i < |s| :: !IsNewlineOrTab(s[i])
  }

  predicate AllSpace(s: string) {
    forall i | 0 <= i < |s| :: IsSpace(s[i])
  }

  /** `re.sub(r'\n|\t', '', s)`. */
  function DropNewlinesTabs(s: string): (r: string)
    ensures Clean(r)
    ensures |r| <= |s|
  {
    if s == [] then []
    else (if IsNewlineOrTab(s[0]) then [] else [s[0]]) + DropNewlinesTabs(s[1..])
  }

  /** `lstrip()`: drops the longest all-whitespace prefix. */
  function LStrip(s: string): (r: string)
    ensures |r| <= |s| && r == s[|s| - |r|..]
    ensures AllSpace(s[..|s| - |r|])
    ensures r != [] ==> !IsSpace(r[0])
  {
    if s != [] && IsSpace(s[0]) then
      var r := LStrip(s[1..]);
      assert s[..|s| - |r|] == [s[0]] + s[1..][..|s| - 1 - |r|];
      assert s[|s| - |r|..] == s[1..][|s| - 1 - |r|..];
      r
    else s
  }

  /** `rstrip()`: drops the longest all-whitespace suffix. */
  function RStrip(s: string): (r: string)
    ensures |r| <= |s| && r == s[..|r|]
    ensures AllSpace(s[|r|..])
    ensures r != [] ==> !IsSpace(r[|r| - 1])
  {
    if s != [] && IsSpace(s[|s| - 1]) then
      var r := RStrip(s[..|s| - 1]);
      assert s[|r|..] == s[..|s| - 1][|r|..] + [s[|s| - 1]];
      r
    else s
  }

  /** How many characters `lstrip()` removes. */
  function LeadingSpaces(s: string): nat {
    |s| - |LStrip(s)|
  }

  /** `strip()`: whitespace removed from both ends. */
  function Strip(s: string): (r: string)
    ensures r != [] ==> !IsSpace(r[0]) && !IsSpace(r[|r| - 1])
  {
    RStrip(LStrip(s))
  }

  /** What `strip()` leaves is the slice of `s` between an all-whitespace
      prefix and an all-whitespace suffix, so it keeps the characters it does
      not remove, in order. */
  lemma StripIsSlice(s: string)
    ensures var r := Strip(s); var i := LeadingSpaces(s);
      && i + |r| <= |s|
      && r == s[i..i + |r|]
      && AllSpace(s[..i])
      && AllSpace(s[i + |r|..])
  {
    var t := LStrip(s);
    var r := RStrip(t);
    assert Strip(s) == r;
    assert LeadingSpaces(s) == |s| - |t|;
    assert t == s[|s| - |t|..] && AllSpace(s[..|s| - |t|]);
    assert r == t[..|r|] && AllSpace(t[|r|..]);
    SuffixPrefixIsSlice(s, t, r, |s| - |t|);
  }

  /** A prefix `r` of the suffix `t == s[i..]`, followed in `t` only by
      whitespace, is the slice `s[i..i + |r|]`, followed in `s` only by
      whitespace. */
  lemma SuffixPrefixIsSlice(s: string, t: string, r: string, i: nat)
    requires i <= |s| && t == s[i..]
    requires |r| <= |t| && r == t[..|r|] && AllSpace(t[|r|..])
    ensures i + |r| <= |s| && r == s[i..i + |r|] && AllSpace(s[i + |r|..])
  {
    assert t[..|r|] == s[i..i + |r|];
    assert t[|r|..] == s[i + |r|..];
  }

  /** Stripping never introduces a newline or tab. */
  lemma StripKeepsClean(s: string)
    requires Clean(s)
    ensures Clean(Strip(s))
  {
    StripIsSlice(s);
    var r := Strip(s);
    var i := LeadingSpaces(s);
    forall k | 0 <= k < |r| ensures !IsNewlineOrTab(r[k]) {
      assert r[k] == s[i + k];
    }
  }

  /** `Model.pretty`. */
  function Pretty(s: string): (r: string)
    ensures |r| <= PreviewLimit
    ensures Clean(r)
    ensures r != [] ==> !IsSpace(r[0])
    ensures var t := Strip(DropNewlinesTabs(s));
      |r| <= |t| && r == t[..|r|] && (|r| == PreviewLimit || r == t)
  {
    var t := Strip(DropNewlinesTabs(s));
    StripKeepsClean(DropNewlinesTabs(s));
    if |t| <= PreviewLimit then
      assert t[..|t|] == t;
      t
    else
      var r := t[..PreviewLimit];
      assert r[0] == t[0];
      r
  }

  /** Deleting characters commutes with concatenation, so deletion keeps
      every other character, in order. */
  lemma {:induction false} DropAppend(a: string, b: string)
    ensures DropNewlinesTabs(a + b) == DropNewlinesTabs(a) + DropNewlinesTabs(b)
  {
    if a == [] {
      assert a + b == b;
    } else {
      assert (a + b)[0] == a[0];
      assert (a + b)[1..] == a[1..] + b;
      DropAppend(a[1..], b);
    }
  }

  /** Deletion leaves text without newlines or tabs unchanged. */
  lemma {:induction false} DropKeepsCleanText(s: string)
    requires Clean(s)
    ensures DropNewlinesTabs(s) == s
  {
    if s != [] {
      DropKeepsCleanText(s[1..]);
      assert s == [s[0]] + s[1..];
    }
  }

  /** A newline or tab anywhere in the input does not change the preview. */
  lemma PrettyIgnoresNewlinesTabs(a: string, c: char, b: string)
    requires IsNewlineOrTab(c)
    ensures Pretty(a + [c] + b) == Pretty(a + b)
  {
    assert [c][1..] == [];
    assert DropNewlinesTabs([c]) == [];
    DropAppend(a, [c]);
    assert DropNewlinesTabs(a + [c]) == DropNewlinesTabs(a);
    DropAppend(a + [c], b);
    DropAppend(a, b);
    assert DropNewlinesTabs(a + [c] + b) == DropNewlinesTabs(a + b);
  }

  /** Stripping an already stripped string changes nothing. */
  lemma StripIdempotent(s: string)
    ensures Strip(Strip(s)) == Strip(s)
  {
  }

  /** Short text with no newline, tab or surrounding whitespace is its own
      preview. */
  lemma PrettyKeepsShortText(s: string)
    requires Clean(s) && |s| <= PreviewLimit
    requires s != [] ==> !IsSpace(s[0]) && !IsSpace(s[|s| - 1])
    ensures Pretty(s) == s
  {
    DropKeepsCleanText(s);
  }

  /** Long text is always cut to exactly the budget. */
  lemma PrettyCutsLongText(s: string)
    requires |Strip(DropNewlinesTabs(s))| >= PreviewLimit
    ensures |Pretty(s)| == PreviewLimit
  {
  }
}

=== FILE: registry.dfy ===
/** The model catalog (`Chain.models`) and model-name resolution
    (`Model.__init__`): three short aliases map to fixed model ids, any other
    catalogued id is accepted as is, and everything else raises `ValueError`. */
module Registry {
  import opened Wrappers
  import opened PyValues

  /** The keys of `Chain.models`, in the dict's order. */
  datatype Provider = Ollama | OpenAI | Anthropic | Google | Testing

  /** The model ids listed for each provider: every provider lists at least
      one id, and none lists an id twice. */
  function Catalog(p: Provider): (ids: seq<string>)
    ensures ids != []
    ensures forall i, j | 0 <= i < j < |ids| :: ids[i] != ids[j]
  {
    match p
    case Ollama => ["qwen:32b", "qwen:7b", "zephyr:latest", "command-r-plus:latest", "command-r:latest",
                    "nous-hermes2:latest", "mixtral:latest", "llava:latest", "gemma:7b", "gemma:2b",
                    "solar:latest", "starling-lm:latest", "neural-chat:latest", "mistral:latest",
                    "phi3:latest", "phi:latest", "llama3:70b", "llama3:latest"]
    case OpenAI => ["gpt-4o", "gpt-4-turbo", "gpt-3.5-turbo-0125"]
    case Anthropic => ["claude-3-opus-20240229", "claude-3-sonnet-20240229", "claude-3-haiku-20240307"]
    case Google => ["gemini-1.5-pro-latest", "gemini-1.5-flash-latest", "gemini-pro"]
    case Testing => ["polonius"]
  }

  /** The catalog flattened in dict order, as `itertools.chain.from_iterable`
      produces it. */
  const AllModels: seq<string> :=
    Catalog(Ollama) + Catalog(OpenAI) + Catalog(Anthropic) + Catalog(Google) + Catalog(Testing)

  /** The short names `Model.__init__` accepts in place of a full id. */
  function AliasTarget(name: string): (r: Option<string>)
    ensures r.Some? <==> name in {"claude", "gpt", "gemini"}
    ensures r.Some? ==> r.value != name
  {
    if name == "claude" then Some("claude-3-opus-20240229")
    else if name == "gpt" then Some("gpt-4o")
    else if name == "gemini" then Some("gemini-pro")
    else None
  }

  /** A constructed `Model`: only its resolved id is kept. */
  datatype Model = Model(name: string)

  /** `Model(name)`: resolve an alias, accept a catalogued id, or raise. */
  function NewModel(name: string): (r: Result<Model, Error>)
    ensures r.Success? ==> r.value.name in AllModels
    ensures AliasTarget(name).Some? ==> r == Success(Model(AliasTarget(name).value))
    ensures AliasTarget(name).None? ==> (r.Success? <==> name in AllModels)
    ensures AliasTarget(name).None? && r.Success? ==> r.value.name == name
    ensures r.Failure? ==> r.error == ValueError("Model not found: " + name)
  {
    match AliasTarget(name)
    case Some(id) =>
      AliasTargetsCatalogued(name);
      Success(Model(id))
    case None =>
      if name in AllModels then Success(Model(name))
      else Failure(ValueError("Model not found: " + name))
  }

  /** Every alias target is itself a catalogued id. */
  lemma AliasTargetsCatalogued(name: string)
    ensures AliasTarget(name).Some? ==> AliasTarget(name).value in AllModels
  {
  }

  /** A name is in the flattened list exactly when some provider lists it. */
  lemma {:induction false} InAllModels(name: string)
    ensures name in AllModels <==> exists p :: name in Catalog(p)
  {
    if name in AllModels {
      if name in Catalog(Ollama) {
      } else if name in Catalog(OpenAI) {
      } else if name in Catalog(Anthropic) {
      } else if name in Catalog(Google) {
      } else {
        assert name in Catalog(Testing);
      }
    }
    if p :| name in Catalog(p) {
      match p
      case Ollama =>
      case OpenAI =>
      case Anthropic =>
      case Google =>
      case Testing =>
    }
  }

  /** No id is listed under two providers. */
  lemma CatalogDisjoint(p: Provider, name: string)
    requires name in Catalog(p)
    ensures forall q | q != p :: name !in Catalog(q)
  {
    match p
    case Ollama => OllamaOnly(name);
    case OpenAI => OpenAIOnly(name);
    case Anthropic => AnthropicOnly(name);
    case Google => GoogleOnly(name);
    case Testing => TestingOnly(name);
  }

  lemma OllamaOnly(name: string)
    requires name in Catalog(Ollama)
    ensures forall q | q != Ollama :: name !in Catalog(q)
  {
  }

  lemma OpenAIOnly(name: string)
    requires name in Catalog(OpenAI)
    ensures forall q | q != OpenAI :: name !in Catalog(q)
  {
  }

  lemma AnthropicOnly(name: string)
    requires name in Catalog(Anthropic)
    ensures forall q | q != Anthropic :: name !in Catalog(q)
  {
  }

  lemma GoogleOnly(name: string)
    requires name in Catalog(Google)
    ensures forall q | q != Google :: name !in Catalog(q)
  {
  }

  lemma TestingOnly(name: string)
    requires name in Catalog(Testing)
    ensures forall q | q != Testing :: name !in Catalog(q)
  {
  }

  /** The three aliases resolve to the documented ids, each different from the
      alias and listed by the matching provider. */
  lemma AliasesResolve()
    ensures NewModel("claude") == Success(Model("claude-3-opus-20240229"))
    ensures NewModel("gpt") == Success(Model("gpt-4o"))
    ensures NewModel("gemini") == Success(Model("gemini-pro"))
    ensures "claude-3-opus-20240229" in Catalog(Anthropic) && "claude-3-opus-20240229" != "claude"
    ensures "gpt-4o" in Catalog(OpenAI) && "gpt-4o" != "gpt"
    ensures "gemini-pro" in Catalog(Google) && "gemini-pro" != "gemini"
  {
  }

  /** An alias never names a model directly: each resolves to a different id. */
  lemma AliasDiffers(name: string)
    requires AliasTarget(name).Some?
    ensures NewModel(name).Success?
    ensures NewModel(name).value.name != name
  {
  }

  /** Resolution is stable: resolving an already resolved id gives it back,
      because no alias is itself a catalogued id. */
  lemma ResolveIdempotent(name: string)
    requires NewModel(name).Success?
    ensures NewModel(NewModel(name).value.name) == NewModel(name)
  {
    var id := NewModel(name).value.name;
    if AliasTarget(id).Some? {
      NotCatalogued(id);
      assert false;
    }
  }

  /** The alias names and the bare name `mistral` are not catalogued ids. */
  lemma NotCatalogued(name: string)
    requires name in {"claude", "gpt", "gemini", "mistral"}
    ensures name !in AllModels
  {
    assert name !in Catalog(Ollama);
    assert name !in Catalog(OpenAI);
    assert name !in Catalog(Anthropic);
    assert name !in Catalog(Google);
    assert name !in Catalog(Testing);
  }

  /** The bare name `mistral` is rejected: only `mistral:latest` is listed. */
  lemma MistralRejected()
    ensures NewModel("mistral") == Failure(ValueError("Model not found: mistral"))
  {
    NotCatalogued("mistral");
    assert AliasTarget("mistral").None?;
    assert "Model not found: " + "mistral" == "Model not found: mistral";
  }
}

=== FILE: responses.dfy ===
/** The `Response` returned by a chain run and the ways it behaves like a
    string: `str(response)`, `len(response)` and `response + text`. The two
    library renderings are opaque: `dumps` stands for `json.dumps(_, indent=4)`
    and `repr` for `str` of a list. */
module Responses {
  import opened Wrappers
  import opened PyValues

  /** A response; the wall-clock `duration` is not modelled. */
  datatype Response = Response(content: Value, status: string, prompt: string, model: string)

  /** Contents `len` accepts: strings, lists, dicts, tuples, sets and bytes;
      a number, a boolean or `None` has no length. */
  predicate Sized(v: Value) {
    v.Str? || v.List? || v.Dict? || v.Tuple? || v.SetOf? || v.Bytes?
  }

  /** Contents `__str__` turns into a string: a string, a list or a dict. */
  predicate Printable(v: Value) {
    v.Str? || v.List? || v.Dict?
  }

  /** Whether `json.dumps` can serialise the value: sets and bytes cannot,
      at any depth; tuples are written as arrays. */
  predicate JsonSerialisable(v: Value) {
    match v
    case SetOf(_) => false
    case Bytes(_) => false
    case List(xs) => forall i | 0 <= i < |xs| :: JsonSerialisable(xs[i])
    case Tuple(xs) => forall i | 0 <= i < |xs| :: JsonSerialisable(xs[i])
    case Dict(es) => forall i | 0 <= i < |es| :: JsonSerialisable(es[i].val)
    case _ => true
  }

  /** `Response.__str__`: a dict is pretty-printed with `json.dumps`, which
      raises `TypeError` on a value it cannot serialise; a list is
      stringified, and a string returned as is. Any other content makes
      `__str__` return a non-string, which Python turns into a `TypeError`. */
  function ToText(r: Response, dumps: Value -> string, repr: Value -> string): (t: Result<string, Error>)
    ensures t.Success? <==> Printable(r.content) && (r.content.Dict? ==> JsonSerialisable(r.content))
    ensures t.Failure? ==> t.error.TypeError?
    ensures r.content.Str? ==> t == Success(r.content.s)
    ensures r.content.Dict? && JsonSerialisable(r.content) ==> t == Success(dumps(r.content))
    ensures r.content.List? ==> t == Success(repr(r.content))
  {
    match r.content
    case Dict(_) =>
      if JsonSerialisable(r.content) then Success(dumps(r.content))
      else Failure(TypeError("Object is not JSON serializable"))
    case List(_) => Success(repr(r.content))
    case Str(s) => Success(s)
    case _ => Failure(TypeError("__str__ returned non-string"))
  }

  /** `Response.__len__`: the length of the content (characters of a string,
      items of a list or tuple, keys of a dict, members of a set, bytes of a
      bytes object). */
  function Length(r: Response): (n: Result<nat, Error>)
    ensures n.Success? <==> Sized(r.content)
    ensures r.content.Str? ==> n == Success(|r.content.s|)
    ensures r.content.List? ==> n == Success(|r.content.items|)
    ensures r.content.Dict? ==> n == Success(|r.content.entries|)
    ensures r.content.Tuple? ==> n == Success(|r.content.elems|)
    ensures r.content.SetOf? ==> n == Success(|r.content.members|)
    ensures r.content.Bytes? ==> n == Success(|r.content.data|)
  {
    match r.content
    case Str(s) => Success(|s|)
    case List(xs) => Success(|xs|)
    case Dict(es) => Success(|es|)
    case Tuple(xs) => Success(|xs|)
    case SetOf(xs) => Success(|xs|)
    case Bytes(bs) => Success(|bs|)
    case _ => Failure(TypeError("object has no len()"))
  }

  /** `Response.__add__`: concatenation with a string goes through `str`;
      any other right operand is unsupported. */
  function Concat(r: Response, other: Value, dumps: Value -> string, repr: Value -> string): (t: Result<string, Error>)
    ensures !other.Str? ==> t.Failure? && t.error.TypeError?
    ensures other.Str? ==> (t.Success? <==> ToText(r, dumps, repr).Success?)
    ensures other.Str? && t.Success? ==> t.value == ToText(r, dumps, repr).value + other.s
  {
    if !other.Str? then Failure(TypeError("unsupported operand type(s) for +"))
    else
      match ToText(r, dumps, repr)
      case Failure(e) => Failure(e)
      case Success(text) => Success(text + other.s)
  }

  /** For plain-string content, `str`, `len` and `+` all agree with the
      string itself: `len(response) == len(str(response))` and
      `response + s == str(response) + s`. */
  lemma StringContentActsAsString(r: Response, s: string, dumps: Value -> string, repr: Value -> string)
    requires r.content.Str?
    ensures Length(r) == Success(|ToText(r, dumps, repr).value|)
    ensures Concat(r, Str(s), dumps, repr) == Success(r.content.s + s)
    ensures |Concat(r, Str(s), dumps, repr).value| == Length(r).value + |s|
  {
  }

  /** `len` and `str` disagree on what they accept: a tuple, set or bytes
      content has a length, but `str(response)` raises `TypeError` because
      `__str__` returns the content itself, which is not a string. */
  lemma LengthWithoutText(r: Response, dumps: Value -> string, repr: Value -> string)
    requires r.content.Tuple? || r.content.SetOf? || r.content.Bytes?
    ensures Length(r).Success?
    ensures ToText(r, dumps, repr).Failure? && ToText(r, dumps, repr).error.TypeError?
  {
  }

  /** A dict holding a set or bytes object has a length, but `str(response)`
      raises in `json.dumps`. */
  lemma UnserialisableDictHasNoText(k: string, v: Value, dumps: Value -> string, repr: Value -> string)
    requires v.SetOf? || v.Bytes?
    ensures var r := Response(Dict([Entry(k, v)]), "success", "", "");
      Length(r) == Success(1) && ToText(r, dumps, repr).Failure? && ToText(r, dumps, repr).error.TypeError?
  {
    var es := [Entry(k, v)];
    assert !JsonSerialisable(es[0].val);
  }

  /** For dict content, `len(response)` is the number of distinct keys, as
      `len` of a Python dict is. */
  lemma DictLengthCountsKeys(r: Response)
    requires r.content.Dict? && DistinctKeys(r.content.entries)
    ensures Length(r) == Success(|KeySet(r.content.entries)|)
  {
    DistinctKeyCount(r.content.entries);
  }
}

=== FILE: routing.dfy ===
/** Request routing in `Model`: `query` sends a message list to `chat` and
    anything else to the first provider whose catalog list holds the model id;
    `chat` routes the same way. The provider SDK calls themselves are opaque:
    they are the functions in `Backends`. */
module Routing {
  import opened Wrappers
  import opened PyValues
  import opened Registry
  import Gemini

  /** The fixed reply of the testing provider. */
  const PoloniusText: string :=
    "My liege, and madam, to expostulate / What majesty should be, what duty is, / Why day is day, night night, and time is time, / Were nothing but to waste night, day and time. / Therefore, since brevity is the soul of wit, / And tediousness the limbs and outward flourishes, / I will be brief: your noble son is mad: / Mad call I it; for, to define true madness, / What is't but to be nothing else but mad? / But let that go."

  /** What `query` and `chat` return for a model id no branch accepts. */
  function NotFoundText(name: string): (t: string)
    ensures |t| == |name| + 17 && t[..17] == "Model not found: " && t[17..] == name
  {
    "Model not found: " + name
  }

  /** The remote calls: `query(p, id, input)` stands for `query_gpt`,
      `query_claude`, `query_ollama` and `query_gemini`; `chat(p, id, messages)`
      for the four `chat_*` SDK calls (for Google, after the rewrite). */
  datatype Backends = Backends(
    query: (Provider, string, Value) -> string,
    chat: (Provider, string, seq<Value>) -> string)

  /** `all(isinstance(x, dict) for x in xs)`. */
  function AllDicts(xs: seq<Value>): (b: bool)
    ensures b <==> forall i | 0 <= i < |xs| :: xs[i].Dict?
  {
    if xs == [] then true
    else xs[0].Dict? && AllDicts(xs[1..])
  }

  /** `Model.is_message`: a list whose every element is a dict. */
  function IsMessage(v: Value): (b: bool)
    ensures b <==> v.List? && forall i | 0 <= i < |v.items| :: v.items[i].Dict?
  {
    v.List? && AllDicts(v.items)
  }

  /** The branch `query` and `chat` take for a model id: the catalog lists are
      tried in the order openai, anthropic, ollama, google, and the testing
      branch compares the id with `polonius` directly. */
  function Route(name: string): (r: Option<Provider>)
    ensures r.Some? ==> name in Catalog(r.value)
    ensures r.None? ==> forall p :: name !in Catalog(p)
  {
    if name in Catalog(OpenAI) then Some(OpenAI)
    else if name in Catalog(Anthropic) then Some(Anthropic)
    else if name in Catalog(Ollama) then Some(Ollama)
    else if name in Catalog(Google) then Some(Google)
    else if name == "polonius" then Some(Testing)
    else None
  }

  /** `Model.chat`. OpenAI, Anthropic and Ollama receive the messages as
      given; Google receives them after the Gemini rewrite, which is the only
      step that can raise (on a message without a role). */
  function Chat(m: Model, messages: seq<Value>, b: Backends): (r: Result<string, Error>)
    ensures r.Failure? ==> Route(m.name) == Some(Google)
    ensures r.Failure? ==>
      Gemini.NormalizeAll(messages).Failure? && r.error == Gemini.NormalizeAll(messages).error
    ensures Route(m.name) == Some(Google) ==>
      (r.Success? <==> Gemini.NormalizeAll(messages).Success?)
    ensures Route(m.name) == Some(Google) && r.Success? ==>
      r.value == b.chat(Google, m.name, Gemini.NormalizeAll(messages).value)
    ensures IsRemote(Route(m.name)) && Route(m.name) != Some(Google) ==>
      r == Success(b.chat(Route(m.name).value, m.name, messages))
    ensures Route(m.name) == Some(Testing) ==> r == Success(PoloniusText)
    ensures Route(m.name).None? ==> r == Success(NotFoundText(m.name))
  {
    match Route(m.name)
    case None => Success(NotFoundText(m.name))
    case Some(Testing) => Success(PoloniusText)
    case Some(Google) =>
      (match Gemini.NormalizeAll(messages)
       case Failure(e) => Failure(e)
       case Success(normalized) => Success(b.chat(Google, m.name, normalized)))
    case Some(p) => Success(b.chat(p, m.name, messages))
  }

  /** Whether a route ends in one of the four SDK calls (`query_gpt`,
      `query_claude`, `query_ollama`, `query_gemini`) rather than in a fixed
      text. */
  predicate IsRemote(route: Option<Provider>) {
    route.Some? && route.value != Testing
  }

  /** `Model.query`. A message list goes to `chat`. Otherwise a remote branch
      logs `pretty(user_input)` after the SDK call, and `re.sub` in `pretty`
      raises `TypeError` for anything that is not a string; the testing and
      not-found branches never look at the input. */
  function Query(m: Model, input: Value, b: Backends): (r: Result<string, Error>)
    ensures IsMessage(input) ==> r == Chat(m, input.items, b)
    ensures !IsMessage(input) ==> (r.Success? <==> input.Str? || !IsRemote(Route(m.name)))
    ensures !IsMessage(input) && !input.Str? && IsRemote(Route(m.name)) ==> r.error.TypeError?
    ensures r.Failure? ==>
      (IsMessage(input) && Route(m.name) == Some(Google)) || (!input.Str? && IsRemote(Route(m.name)))
  {
    if IsMessage(input) then Chat(m, input.items, b)
    else match Route(m.name)
      case None => Success(NotFoundText(m.name))
      case Some(Testing) => Success(PoloniusText)
      case Some(p) =>
        if input.Str? then Success(b.query(p, m.name, input))
        else Failure(TypeError("expected string or bytes-like object"))
  }

  /** Routing agrees with the catalog: a catalogued id is sent to the one
      provider that lists it, and an uncatalogued id to no provider. */
  lemma RouteMatchesCatalog(name: string, p: Provider)
    ensures Route(name) == Some(p) <==> name in Catalog(p)
  {
    if name in Catalog(p) {
      CatalogDisjoint(p, name);
    }
  }

  /** An id reaches no provider exactly when it is not catalogued. */
  lemma {:induction false} RouteNoneIffUncatalogued(name: string)
    ensures Route(name).None? <==> name !in AllModels
  {
    InAllModels(name);
    if Route(name).Some? {
      RouteMatchesCatalog(name, Route(name).value);
    }
    if p :| name in Catalog(p) {
      RouteMatchesCatalog(name, p);
    }
  }

  /** A model built by `Model(name)` is always routed to some provider. */
  lemma ConstructedModelsRoute(name: string)
    requires NewModel(name).Success?
    ensures Route(NewModel(name).value.name).Some?
  {
    RouteNoneIffUncatalogued(NewModel(name).value.name);
  }

  /** The testing model answers with the same fixed text for every input,
      text or message list. */
  lemma PoloniusIgnoresInput(input: Value, b: Backends)
    ensures Query(Model("polonius"), input, b) == Success(PoloniusText)
  {
    RouteMatchesCatalog("polonius", Testing);
  }

  /** An uncatalogued id is answered with a text, never an exception,
      whatever the input. */
  lemma UnknownModelAnswersText(name: string, input: Value, b: Backends)
    requires name !in AllModels
    ensures Query(Model(name), input, b) == Success(NotFoundText(name))
  {
    RouteNoneIffUncatalogued(name);
  }

  /** A plain-text input to a catalogued, non-testing id is passed unchanged to
      that id's provider. */
  lemma TextGoesToOwner(name: string, p: Provider, input: Value, b: Backends)
    requires p != Testing && name in Catalog(p)
    requires input.Str?
    ensures Query(Model(name), input, b) == Success(b.query(p, name, input))
  {
    RouteMatchesCatalog(name, p);
  }

  /** A message list sent to a catalogued OpenAI, Anthropic or Ollama id is
      passed unchanged to that id's provider; for a Google id it is passed
      after the Gemini rewrite, when that succeeds. */
  lemma MessagesGoToOwner(name: string, p: Provider, messages: seq<Value>, b: Backends)
    requires p != Testing && name in Catalog(p)
    requires forall i | 0 <= i < |messages| :: messages[i].Dict?
    ensures p != Google ==>
      Query(Model(name), List(messages), b) == Success(b.chat(p, name, messages))
    ensures p == Google && Gemini.NormalizeAll(messages).Success? ==>
      Query(Model(name), List(messages), b) ==
        Success(b.chat(Google, name, Gemini.NormalizeAll(messages).value))
  {
    RouteMatchesCatalog(name, p);
  }

  /** Any other input that is not a message list, sent to a catalogued,
      non-testing id, raises `TypeError` in the log preview. */
  lemma NonTextRaisesInPreview(name: string, p: Provider, input: Value, b: Backends)
    requires p != Testing && name in Catalog(p)
    requires !input.Str? && !IsMessage(input)
    ensures Query(Model(name), input, b).Failure?
    ensures Query(Model(name), input, b).error.TypeError?
  {
    RouteMatchesCatalog(name, p);
  }

  /** The empty list counts as a message list, so `query([])` goes to `chat`. */
  lemma EmptyListIsMessage()
    ensures IsMessage(List([]))
  {
  }
}

=== FILE: values.dfy ===
/** The Python values the framework passes around: prompt inputs, chat
    messages, parser output and response content. Floats and complex numbers,
    which `json.loads` and `ast.literal_eval` can also produce, are not among
    them. A dict is an ordered list of entries, because Python dicts keep
    insertion order and `chat_gemini` relies on where `pop` and assignment put
    a key. Keys are strings: every dict the framework builds or inspects is
    keyed by strings. */
module PyValues {
  import opened Wrappers

  datatype Value =
    | Null
    | Bool(b: bool)
    | Int(i: int)
    | Str(s: string)
    | List(items: seq<Value>)
    | Dict(entries: seq<Entry>)
    | Tuple(elems: seq<Value>)
    | SetOf(members: set<Value>)
    | Bytes(data: seq<bv8>)

  datatype Entry = Entry(key: string, val: Value)

  /** The Python exceptions the modelled code raises. */
  datatype Error =
    | ValueError(msg: string)
    | TypeError(msg: string)
    | KeyError(key: string)
    | LibraryError(msg: string)   // raised inside a library the model treats as opaque

  /** Whether Python can hash the value (use it as a dict key or look it up
      in a dict): lists, dicts and sets cannot be hashed, and a tuple can
      exactly when all its elements can. */
  predicate Hashable(v: Value) {
    match v
    case List(_) => false
    case Dict(_) => false
    case SetOf(_) => false
    case Tuple(xs) => forall i | 0 <= i < |xs| :: Hashable(xs[i])
    case _ => true
  }

  /** The keys of a dict, in insertion order. */
  function Keys(es: seq<Entry>): (ks: seq<string>)
    ensures |ks| == |es|
    ensures forall i | 0 <= i < |es| :: ks[i] == es[i].key
  {
    if es == [] then [] else [es[0].key] + Keys(es[1..])
  }

  /** A well-formed dict: no key occurs twice. */
  predicate DistinctKeys(es: seq<Entry>) {
    es == [] || (es[0].key !in Keys(es[1..]) && DistinctKeys(es[1..]))
  }

  /** The set of keys of a dict. */
  function KeySet(es: seq<Entry>): set<string> {
    if es == [] then {} else {es[0].key} + KeySet(es[1..])
  }

  /** The key set holds exactly the keys the dict lists. */
  lemma {:induction false} KeySetHasKeys(es: seq<Entry>, k: string)
    ensures k in KeySet(es) <==> k in Keys(es)
  {
    if es != [] {
      KeySetHasKeys(es[1..], k);
      assert Keys(es) == [es[0].key] + Keys(es[1..]);
    }
  }

  /** `len(d)`: a well-formed dict has one entry per distinct key. */
  lemma {:induction false} DistinctKeyCount(es: seq<Entry>)
    requires DistinctKeys(es)
    ensures |KeySet(es)| == |es|
  {
    if es != [] {
      DistinctKeyCount(es[1..]);
      KeySetHasKeys(es[1..], es[0].key);
    }
  }

  /** `d.get(k)`: the value stored under `k`, if any. */
  function Lookup(es: seq<Entry>, k: string): (r: Option<Value>)
    ensures r.Some? <==> k in Keys(es)
    ensures r.Some? ==> Entry(k, r.value) in es
    ensures r.None? ==> forall i | 0 <= i < |es| :: es[i].key != k
  {
    if es == [] then None
    else if es[0].key == k then Some(es[0].val)
    else Lookup(es[1..], k)
  }

  /** `d[k] = v`: overwrites the value in place when `k` is present,
      otherwise appends a new entry at the end. */
  function Store(es: seq<Entry>, k: string, v: Value): (r: seq<Entry>)
    ensures forall j :: Lookup(r, j) == if j == k then Some(v) else Lookup(es, j)
    ensures k in Keys(es) ==> Keys(r) == Keys(es)
    ensures k !in Keys(es) ==> Keys(r) == Keys(es) + [k]
  {
    if es == [] then [Entry(k, v)]
    else if es[0].key == k then
      var r := [Entry(k, v)] + es[1..];
      assert r[1..] == es[1..];
      r
    else
      var rest := Store(es[1..], k, v);
      var r := [es[0]] + rest;
      assert r[1..] == rest;
      r
  }

  /** `d.pop(k)` without the returned value: drops the entry for `k`. */
  function Remove(es: seq<Entry>, k: string): (r: seq<Entry>)
    ensures Lookup(r, k) == None
    ensures forall j | j != k :: Lookup(r, j) == Lookup(es, j)
    ensures forall j :: j in Keys(r) <==> j in Keys(es) && j != k
    ensures |r| <= |es|
    ensures DistinctKeys(es) ==> DistinctKeys(r)
  {
    if es == [] then []
    else if es[0].key == k then Remove(es[1..], k)
    else [es[0]] + Remove(es[1..], k)
  }

  /** Assigning to a key of a well-formed dict keeps it well-formed. */
  lemma {:induction false} StoreKeepsDistinct(es: seq<Entry>, k: string, v: Value)
    ensures DistinctKeys(es) ==> DistinctKeys(Store(es, k, v))
  {
    if !DistinctKeys(es) {
    } else if es != [] && es[0].key != k {
      StoreKeepsDistinct(es[1..], k, v);
      var r := Store(es, k, v);
      assert r[1..] == Store(es[1..], k, v);
    } else if es != [] {
      assert Store(es, k, v)[1..] == es[1..];
    }
  }
}

=== FILE: wrappers.dfy ===
/** Option and Result wrappers used throughout the model, and the early-exit
    loop over a sequence that a Python `for` loop with a raising body is. */
module Wrappers {

  datatype Option<+T> = None | Some(value: T)

  /** `Failure(e)` stands for a Python call that raised the exception `e`. */
  datatype Result<+T, +E> = Success(value: T) | Failure(error: E)

  /** Applies `f` to each element in order, stopping at the first failure:
      the shape of a Python `for` loop whose body may raise. */
  function MapUntilFailure<T, U, E>(f: T -> Result<U, E>, xs: seq<T>): (r: Result<seq<U>, E>)
    ensures r.Success? <==> forall i | 0 <= i < |xs| :: f(xs[i]).Success?
    ensures r.Success? ==> |r.value| == |xs|
    ensures r.Success? ==> forall i | 0 <= i < |xs| :: r.value[i] == f(xs[i]).value
  {
    if xs == [] then Success([])
    else
      match f(xs[0])
      case Failure(e) => Failure(e)
      case Success(y) =>
        match MapUntilFailure(f, xs[1..])
        case Failure(e) =>
          assert exists j | 1 <= j < |xs| :: xs[j] == xs[1..][j - 1] && f(xs[j]).Failure?;
          Failure(e)
        case Success(rest) =>
          var out := [y] + rest;
          assert forall i | 1 <= i < |xs| :: out[i] == rest[i - 1] && xs[i] == xs[1..][i - 1];
          Success(out)
  }

  /** A failed `MapUntilFailure` reports the error of the first element that
      fails; every element before it succeeded. */
  lemma {:induction false} MapStopsAtFirstFailure<T, U, E>(f: T -> Result<U, E>, xs: seq<T>)
    requires MapUntilFailure(f, xs).Failure?
    ensures exists i | 0 <= i < |xs| ::
      && f(xs[i]) == Failure(MapUntilFailure(f, xs).error)
      && forall j | 0 <= j < i :: f(xs[j]).Success?
  {
    if f(xs[0]).Failure? {
      assert f(xs[0]) == Failure(MapUntilFailure(f, xs).error);
    } else {
      var tail := xs[1..];
      MapStopsAtFirstFailure(f, tail);
      var k :| 0 <= k < |tail| && f(tail[k]) == Failure(MapUntilFailure(f, tail).error)
        && forall j | 0 <= j < k :: f(tail[j]).Success?;
      assert xs[k + 1] == tail[k];
      assert forall j | 1 <= j < k + 1 :: xs[j] == tail[j - 1];
      assert MapUntilFailure(f, xs).error == MapUntilFailure(f, tail).error;
    }
  }
}
